=== FILE: README.md ===
# generate-file: assembling a KEY=VALUE configuration file

This project models the `generate-file` console command of the configurator
tool (`GenerateConfigFileCommand`). The command reads zero or more `--file`
sources of `KEY=VALUE` rows and zero or more `--var`/`--val` pairs. It
assembles them into one ordered document and writes the document to a target
file.

The document (`$configsData`) is `null` until the first ingestion. After
that it is an ordered list of lines:

- a passthrough row: a row without `=`, kept verbatim;
- a one-key entry `[key => value]`.

In the model this is `Option<seq<Line>>`, where
`Line = Passthrough(text) | Entry(key, value)`. Modules:

- `Wrappers` (wrappers.dfy): `Option` and `Result`.
- `PhpString` (php_string.dfy): the PHP string functions the command uses.
  These are `strpos`, `explode` on `PHP_EOL`, `explode('=', $row, 2)`,
  `implode`, and `trim` with a character list. The one-line wrappers
  `PhpTrim`, `TrimQuotes` and `Contains` have no rows of their own: the
  `Trim` and `StrPos` rows describe them. `Implode` is described by
  `ImplodeExplode` and `ExplodeImplode`, and `ArrayKeys` in `ConfigDocument`
  by `OverwriteNeverFires`.
- `ConfigDocument` (config_document.dfy): `makeConfigItem`,
  `setVariable`, `parseFile` and the rendering part of `writeTargetFile`.
  It also holds the reference readings these are proved against, and the
  render/parse round trip.
- `GenerateConfigFile` (generate_config_file.dfy): `execute`. This covers
  the two argument checks, the file loop, the variable loop, and the text
  that gets written.

## Behaviour as written

The overwrite branch of `setVariable` (lines 193-203) can never run. The
loop walks `array_keys($this->configsData)`, so each `$configData` is an
integer and `is_array` is always false. The model keeps that loop:

- `FindEntry` scans `PhpValue` items;
- `Overwrite` would store the raw, un-dequoted value at line 199;
- `ArrayKeys` yields integers only.

`SetVariable`'s contract then proves that every call appends exactly one
`MakeConfigItem(variable, value)`. So a key given twice appears twice in
the output (`DuplicateKeysKept`). Lines 193-203 look meant to overwrite a
repeated key in place; as written they never fire (`OverwriteNeverFires`).

A file whose content ends with a line terminator yields a final empty row:

- in the first file, that row is kept as an empty passthrough line;
- in a later file, it is dropped.

## Model

| member | source | states |
|---|---|---|
| `PhpString.StrPos` | app/Command/GenerateConfigFileCommand.php:165 | `strpos` finds the first occurrence of the needle. The result is present exactly when the needle occurs. |
| `PhpString.SplitAtFirst` | app/Command/GenerateConfigFileCommand.php:173 | `explode('=', $row, 2)` is absent exactly when the row has no `=`. Otherwise the raw key has no `=` and raw key + `=` + raw value is the row. |
| `PhpString.Explode` | app/Command/GenerateConfigFileCommand.php:156 | Splitting on `PHP_EOL` always gives at least one piece, and no piece holds a terminator. |
| `PhpString.ImplodeExplode` | app/Command/GenerateConfigFileCommand.php:156 | Joining the pieces of a text with `PHP_EOL` gives back the text. |
| `PhpString.ExplodeImplode` | app/Command/GenerateConfigFileCommand.php:241 | Joining one or more terminator-free lines and splitting the result gives back the lines. |
| `PhpString.SkipLeading` | app/Command/GenerateConfigFileCommand.php:216 | The left edge of `trim`: every character skipped is in the list, and the first kept one is not. |
| `PhpString.SkipTrailing` | app/Command/GenerateConfigFileCommand.php:216 | The right edge of `trim`: every character dropped is in the list, and the last kept one is not. |
| `PhpString.Trim` | app/Command/GenerateConfigFileCommand.php:216 | The result of `trim` neither starts nor ends with a character of the list. |
| `PhpString.TrimStrips` | app/Command/GenerateConfigFileCommand.php:216 | `trim` keeps one contiguous slice of its input. Everything outside the slice is in the list. |
| `PhpString.TrimFixedPoint` | app/Command/GenerateConfigFileCommand.php:216 | A string is its own `trim` exactly when it is empty or neither end is in the list. |
| `PhpString.TrimIdempotent` | app/Command/GenerateConfigFileCommand.php:191 | Trimming twice equals trimming once. So `setVariable`'s own `trim` before `makeConfigItem` changes nothing. |
| `PhpString.TrimWrapped` | app/Command/GenerateConfigFileCommand.php:216 | A value whose own ends are not quotes, placed between one quote on each side, loses exactly those quotes under the quote trim. |
| `ConfigDocument.MakeConfigItem` | app/Command/GenerateConfigFileCommand.php:214-217 | The item is an entry whose key has no leading or trailing PHP whitespace. Its value has no leading or trailing `"` or `'`. |
| `ConfigDocument.MakeConfigItemNormalised` | app/Command/GenerateConfigFileCommand.php:214-217 | Trimming the key again, or quote-trimming the value again, leaves it unchanged. |
| `ConfigDocument.MakeConfigItemKey` | app/Command/GenerateConfigFileCommand.php:216 | The key is the raw key with its surrounding whitespace removed, and nothing else removed. |
| `ConfigDocument.MakeConfigItemValue` | app/Command/GenerateConfigFileCommand.php:216 | The value is the whitespace-trimmed raw value with its surrounding quotes removed, and nothing else removed. |
| `ConfigDocument.FindEntry` | app/Command/GenerateConfigFileCommand.php:193-203 | The duplicate-key scan returns the first array item whose key matches. Non-array items are skipped. No result means no item matches. |
| `ConfigDocument.Overwrite` | app/Command/GenerateConfigFileCommand.php:193-203 | The overwrite step succeeds exactly when the scan finds a match. It then stores the raw, un-dequoted value at the first match (line 199) and changes no other line. |
| `ConfigDocument.OverwriteNeverFires` | app/Command/GenerateConfigFileCommand.php:193-196 | On the items the loop really scans, the integer positions from `array_keys`, the overwrite step never fires. |
| `ConfigDocument.SetVariable` | app/Command/GenerateConfigFileCommand.php:183-206 | From null or from an initialised document, the result is the old lines followed by exactly one `makeConfigItem` entry. No line is overwritten. |
| `ConfigDocument.DuplicateKeysKept` | app/Command/GenerateConfigFileCommand.php:193-205 | Setting one key twice leaves both entries, the earlier one first. |
| `ConfigDocument.ParseRow` | app/Command/GenerateConfigFileCommand.php:165-176 | One row keeps every earlier line and adds at most one line. It adds one exactly when the row holds `=` or the file is the first; a later file's row without `=` adds nothing. |
| `ConfigDocument.ParseRows` | app/Command/GenerateConfigFileCommand.php:164-176 | The row loop keeps every earlier line and adds at most one line per row, and exactly one per row in the first file. `ParseFirstRows` and `ParseLaterRows` state which lines. |
| `ConfigDocument.ParseFile` | app/Command/GenerateConfigFileCommand.php:152-177 | Afterwards the document is initialised and starts with its earlier lines. The file counts as the first exactly when the document was null (lines 159-162), and then it yields one line per exploded row. |
| `ConfigDocument.ParseRowAppends` | app/Command/GenerateConfigFileCommand.php:164-176 | One row appends its reading and leaves earlier lines alone. A row with `=` adds its entry. A row without `=` is added as a passthrough only in the first file. |
| `ConfigDocument.ParseFirstRows` | app/Command/GenerateConfigFileCommand.php:164-176 | The rows of the first file add one line each, in file order. |
| `ConfigDocument.ParseLaterRows` | app/Command/GenerateConfigFileCommand.php:164-176 | The rows of a later file add only their entries, in file order. |
| `ConfigDocument.ParseFirstFile` | app/Command/GenerateConfigFileCommand.php:152-177 | `parseFile` on a null document keeps every row. A row without `=` becomes a passthrough; any other row becomes an entry. |
| `ConfigDocument.ParseLaterFile` | app/Command/GenerateConfigFileCommand.php:152-177 | `parseFile` on an initialised document leaves earlier lines unchanged. It appends the file's entries and drops its rows without `=`. |
| `ConfigDocument.RenderLine` | app/Command/GenerateConfigFileCommand.php:221-236 | A raw row is written verbatim. An entry is written as `key=` followed by its value, in double quotes exactly when the key contains `password` or the value contains a space or `${`. |
| `ConfigDocument.Render` | app/Command/GenerateConfigFileCommand.php:219-241 | An empty document is written as empty text, a one-line document as that line's rendering, and a longer one starts with the first line's rendering and a line terminator. |
| `ConfigDocument.RenderEntryQuoting` | app/Command/GenerateConfigFileCommand.php:224-236 | An entry is written as `k="v"` exactly when `k` contains `password` or `v` contains a space or `${`. Otherwise it is `k=v`. |
| `ConfigDocument.RenderOneLinePerLine` | app/Command/GenerateConfigFileCommand.php:219-241 | For a non-empty document in which no rendered line holds a line terminator, rendering writes one output line per document line, in order. |
| `ConfigDocument.RowLineRenderLine` | app/Command/GenerateConfigFileCommand.php:229-236 | Parsing back the rendered row of a well-formed line gives the line. |
| `ConfigDocument.RoundTrip` | app/Command/GenerateConfigFileCommand.php:219-241 | Take a non-empty document of well-formed lines. Render it and parse the text as the first file, and the same lines come back. |
| `ConfigDocument.QuoteEndLost` | app/Command/GenerateConfigFileCommand.php:219-241 | Rendering does not escape values, so the round trip needs well-formed lines: the entry `k` = `a"` is written bare as `k=a"`, and reading it back gives the value `a`. |
| `GenerateConfigFile.ParseFiles` | app/Command/GenerateConfigFileCommand.php:114-116 | After the file loop, the document is initialised if it was before or if any file was given. |
| `GenerateConfigFile.SetVariables` | app/Command/GenerateConfigFileCommand.php:118-120 | After the variable loop, the document is initialised if it was before or if any pair was given. |
| `GenerateConfigFile.ParseLaterFiles` | app/Command/GenerateConfigFileCommand.php:114-116 | Files parsed into an initialised document append their entries, file by file, in option order. |
| `GenerateConfigFile.ParseAllFiles` | app/Command/GenerateConfigFileCommand.php:114-116 | Starting from null, the first file keeps all its rows and later files add only entries. |
| `GenerateConfigFile.SetLaterVariables` | app/Command/GenerateConfigFileCommand.php:118-120 | Pairs set on an initialised document append one entry each, in index order. |
| `GenerateConfigFile.VariablesOnly` | app/Command/GenerateConfigFileCommand.php:185-188 | With no files, the first pair seeds the document and the other pairs follow in order. |
| `GenerateConfigFile.FilesThenVariables` | app/Command/GenerateConfigFileCommand.php:114-120 | With files, the document is the first file's rows, then later files' entries, then the pairs. |
| `GenerateConfigFile.ProcessingOrder` | app/Command/GenerateConfigFileCommand.php:114-120 | Once the checks pass, the document holds the file rows in file and option order, then the pairs in index order. It is non-empty, so it is non-null when rendered. |
| `GenerateConfigFile.WriteTargetFile` | app/Command/GenerateConfigFileCommand.php:219-241 | An empty document gives empty text. The text of a non-empty document of well-formed lines, read back as a first file, gives the document again. |
| `GenerateConfigFile.Execute` | app/Command/GenerateConfigFileCommand.php:99-125 | The run fails when no files and no variables are given, or when the two counts differ. Otherwise it writes the rendering of the assembled document. |
| `GenerateConfigFile.ExecuteRoundTrip` | app/Command/GenerateConfigFileCommand.php:122 | When the checks pass and every line of the assembled document is well formed, the run succeeds. Its written text, read back as a first file, gives the document again. |

## Left out

- Symfony console wiring (`configure`, `initialize`): argument parsing is outside the merge logic.
- Exception texts: both checks throw the same exception with the same message (line 111 repeats line 105). They are modelled as the plain error values `NoSources` and `CountMismatch`.
- Filesystem access is not modelled. This covers `getPath` and its existence check (lines 132-145), `file_get_contents` and `dumpFile`. A source file is given as its content string. `Execute` returns the text that would be written to the target path. A missing file is therefore not an error of this model.
- `PHP_EOL` is platform dependent. It is fixed to a line feed.
- PHP typing quirks are not modelled: a `--file` given without a value yields `null` (line 59), and numeric-string keys become integer array keys at line 216. Keys and paths are ordinary strings.
- `writeTargetFile` overwrites `$configsData` in place with the rendered rows. It is modelled as a pure rendering of the document.
- A line feed inside a `--var` name or a `--val` value, not at either end, survives the trims of line 216, so that entry is written across several output lines (lines 236 and 241). A line feed at either end is trimmed away. RenderOneLinePerLine and the round-trip lemmas therefore exclude lines whose rendering holds a line feed.
- RoundTrip, WriteTargetFile and ExecuteRoundTrip promise the round trip only for well-formed lines: passthroughs and keys without `=` or a terminator, keys without surrounding whitespace, and values without a terminator whose ends are not `\t`, `\r`, `\0`, `\x0B`, `"` or `'`. Other documents need not survive the trip, because rendering does not escape anything: `Entry("k", "a\"")` renders as `k=a"` and reads back as `Entry("k", "a")` (`QuoteEndLost`).

=== FILE: config_document.dfy ===
/** The configuration document the command assembles: an ordered list of
    lines, each a passthrough row kept verbatim or a single key/value entry,
    together with the operations that add rows to it (`parseFile`,
    `setVariable`, `makeConfigItem`) and turn it back into text
    (`writeTargetFile`). */
module ConfigDocument {
  import opened Wrappers
  import opened PhpString

  /** One element of `$configsData`: a row without `=` kept as it was, or a
      one-element array `[key => value]`. */
  datatype Line = Passthrough(text: string) | Entry(key: string, value: string)

  /** `$configsData`: `None` until the first file or variable is ingested. */
  type Document = Option<seq<Line>>

  /** The lines held so far; an uninitialised document holds none. */
  function Lines(doc: Document): seq<Line>
  {
    doc.GetOr([])
  }

  /** `makeConfigItem`: the key is trimmed of PHP whitespace; the value is
      trimmed of PHP whitespace and then of every leading and trailing quote. */
  function MakeConfigItem(variable: string, value: string): (r: Line)
    ensures r.Entry?
    ensures |r.key| > 0 ==> r.key[0] !in PhpWhitespace && r.key[|r.key| - 1] !in PhpWhitespace
    ensures |r.value| > 0 ==> r.value[0] !in Quotes && r.value[|r.value| - 1] !in Quotes
  {
    Entry(PhpTrim(variable), TrimQuotes(PhpTrim(value)))
  }

  /** The item is already normalised: trimming its key or quote-trimming its
      value again changes nothing. */
  lemma MakeConfigItemNormalised(variable: string, value: string)
    ensures PhpTrim(MakeConfigItem(variable, value).key) == MakeConfigItem(variable, value).key
    ensures TrimQuotes(MakeConfigItem(variable, value).value) == MakeConfigItem(variable, value).value
  {
    TrimIdempotent(variable, PhpWhitespace);
    TrimIdempotent(PhpTrim(value), Quotes);
  }

  /** The key is the slice of the raw key left once PHP whitespace is
      stripped from both ends. */
  lemma MakeConfigItemKey(variable: string, value: string)
    ensures StrippedAt(variable, MakeConfigItem(variable, value).key, PhpWhitespace,
                       SkipLeading(variable, PhpWhitespace, 0))
  {
    TrimStrips(variable, PhpWhitespace);
  }

  /** The value is the slice of the whitespace-trimmed raw value left once
      quotes are stripped from both ends. */
  lemma MakeConfigItemValue(variable: string, value: string)
    ensures StrippedAt(PhpTrim(value), MakeConfigItem(variable, value).value, Quotes,
                       SkipLeading(PhpTrim(value), Quotes, 0))
  {
    TrimStrips(PhpTrim(value), Quotes);
  }

  /** A PHP value as the duplicate-key loop of `setVariable` sees it. */
  datatype PhpValue = PhpInt(n: int) | PhpArray(key: string, value: string)

  /** `array_keys($configsData)` of a list: its positions, as PHP integers. */
  function ArrayKeys(lines: seq<Line>): seq<PhpValue>
  {
    seq(|lines|, i => PhpInt(i))
  }

  /** The duplicate-key loop of `setVariable`: the position of the first item
      that is an array whose key is `key`; items that are not arrays are
      skipped. */
  function FindEntry(items: seq<PhpValue>, key: string, from: nat): (r: Option<nat>)
    decreases |items| - from
    ensures r.Some? ==> from <= r.value < |items|
    ensures r.Some? ==> items[r.value].PhpArray? && items[r.value].key == key
    ensures r.Some? ==> forall j :: from <= j < r.value ==> !(items[j].PhpArray? && items[j].key == key)
    ensures r.None? ==> forall j :: from <= j < |items| ==> !(items[j].PhpArray? && items[j].key == key)
  {
    if from >= |items| then None
    else if !items[from].PhpArray? then FindEntry(items, key, from + 1)
    else if items[from].key == key then Some(from)
    else FindEntry(items, key, from + 1)
  }

  /** The overwrite step of `setVariable` over the items it scans: the first
      matching position gets the raw, un-dequoted value. `None` when no item
      matches. */
  function Overwrite(lines: seq<Line>, items: seq<PhpValue>, key: string, value: string): (r: Option<seq<Line>>)
    requires |items| == |lines|
    ensures r.None? <==> FindEntry(items, key, 0).None?
    ensures r.Some? ==> |r.value| == |lines|
    ensures r.Some? ==> var i := FindEntry(items, key, 0).value;
      && r.value[i] == Entry(key, value)
      && forall j :: 0 <= j < |lines| && j != i ==> r.value[j] == lines[j]
  {
    match FindEntry(items, key, 0)
    case None => None
    case Some(i) => Some(lines[i := Entry(key, value)])
  }

  /** The overwrite step never fires on the items `setVariable` actually
      scans: they are all integers. */
  lemma OverwriteNeverFires(lines: seq<Line>, key: string, value: string)
    ensures Overwrite(lines, ArrayKeys(lines), key, value).None?
  {
    var items := ArrayKeys(lines);
    assert forall j :: 0 <= j < |items| ==> items[j] == PhpInt(j);
  }

  /** `setVariable`: seeds an uninitialised document with the entry, and
      otherwise looks for an entry to overwrite before appending. Because the
      loop ranges over `array_keys`, it only ever sees integers, never an
      entry, so every call appends exactly one new entry and no earlier line
      changes. */
  function SetVariable(doc: Document, variable: string, value: string): (r: Document)
    ensures r == Some(Lines(doc) + [MakeConfigItem(variable, value)])
  {
    match doc
    case None =>
      assert [] + [MakeConfigItem(variable, value)] == [MakeConfigItem(variable, value)];
      Some([MakeConfigItem(variable, value)])
    case Some(lines) =>
      var key := PhpTrim(variable);
      TrimIdempotent(variable, PhpWhitespace);
      match Overwrite(lines, ArrayKeys(lines), key, value)
      case Some(updated) => Some(updated)
      case None => Some(lines + [MakeConfigItem(key, value)])
  }

  /** Setting the same key twice keeps both entries, the earlier one first:
      the later call does not overwrite. */
  lemma DuplicateKeysKept(doc: Document, variable: string, first: string, second: string)
    ensures SetVariable(SetVariable(doc, variable, first), variable, second)
         == Some(Lines(doc) + [MakeConfigItem(variable, first), MakeConfigItem(variable, second)])
  {
    assert Lines(doc) + [MakeConfigItem(variable, first)] + [MakeConfigItem(variable, second)]
        == Lines(doc) + [MakeConfigItem(variable, first), MakeConfigItem(variable, second)];
  }

  /** One row of `parseFile`: a row without `=` is kept only in the first
      file; any other row is split at its first `=` and handed to
      `setVariable`. */
  function ParseRow(lines: seq<Line>, row: string, isFirstFile: bool): (r: seq<Line>)
    ensures lines <= r && |r| <= |lines| + 1
    ensures |r| == |lines| + 1 <==> isFirstFile || '=' in row
  {
    match SplitAtFirst(row, '=')
    case None => if isFirstFile then lines + [Passthrough(row)] else lines
    case Some((variable, value)) => SetVariable(Some(lines), variable, value).value
  }

  /** The rows of one file, in file order. */
  function ParseRows(lines: seq<Line>, rows: seq<string>, isFirstFile: bool): (r: seq<Line>)
    decreases |rows|
    ensures lines <= r && |r| <= |lines| + |rows|
    ensures isFirstFile ==> |r| == |lines| + |rows|
  {
    if |rows| == 0 then lines
    else ParseRows(ParseRow(lines, rows[0], isFirstFile), rows[1..], isFirstFile)
  }

  /** `parseFile` on a file with content `content`: the file is the first one
      exactly when the document is still uninitialised. */
  function ParseFile(doc: Document, content: string): (r: Document)
    ensures r.Some?
    ensures Lines(doc) <= r.value && |r.value| <= |Lines(doc)| + |Explode(content)|
    ensures doc.None? ==> |r.value| == |Explode(content)|
  {
    Some(ParseRows(Lines(doc), Explode(content), doc.None?))
  }

  /** Reference reading of a single row: an entry made from its two sides of
      the first `=`, or the row itself as a passthrough. */
  function RowLine(row: string): Line
  {
    match SplitAtFirst(row, '=')
    case None => Passthrough(row)
    case Some((variable, value)) => MakeConfigItem(variable, value)
  }

  /** Reference reading of a list of rows, one line per row. */
  function RowLines(rows: seq<string>): (r: seq<Line>)
    ensures |r| == |rows|
  {
    seq(|rows|, i requires 0 <= i < |rows| => RowLine(rows[i]))
  }

  /** The entries of `lines`, in order, without the passthrough lines. */
  function EntriesOnly(lines: seq<Line>): seq<Line>
  {
    if |lines| == 0 then []
    else (if lines[0].Entry? then [lines[0]] else []) + EntriesOnly(lines[1..])
  }

  /** What one row adds: its reference reading, unless it is a passthrough
      row of a later file. */
  function RowContribution(row: string, isFirstFile: bool): seq<Line>
  {
    if isFirstFile || RowLine(row).Entry? then [RowLine(row)] else []
  }

  /** A row holding `=` appends its entry through `setVariable`. */
  lemma ParseEntryRow(lines: seq<Line>, row: string, isFirstFile: bool)
    requires '=' in row
    ensures ParseRow(lines, row, isFirstFile) == lines + [RowLine(row)]
  {
  }

  /** One row appends its contribution and leaves every earlier line alone. */
  lemma ParseRowAppends(lines: seq<Line>, row: string, isFirstFile: bool)
    ensures ParseRow(lines, row, isFirstFile) == lines + RowContribution(row, isFirstFile)
  {
    if '=' in row {
      ParseEntryRow(lines, row, isFirstFile);
    }
  }

  /** The reference reading of rows is the reading of the first row followed
      by that of the rest. */
  lemma RowLinesCons(rows: seq<string>)
    requires |rows| > 0
    ensures RowLines(rows) == RowContribution(rows[0], true) + RowLines(rows[1..])
  {
  }

  /** Parsing rows is parsing the first row, then the others after it. */
  lemma ParseRowsStep(lines: seq<Line>, rows: seq<string>, isFirstFile: bool)
    requires |rows| > 0
    ensures ParseRows(lines, rows, isFirstFile)
         == ParseRows(lines + RowContribution(rows[0], isFirstFile), rows[1..], isFirstFile)
  {
    ParseRowAppends(lines, rows[0], isFirstFile);
  }

  /** Parsing the rows of the first file appends one line per row. */
  lemma {:induction false} ParseFirstRows(lines: seq<Line>, rows: seq<string>)
    decreases |rows|
    ensures ParseRows(lines, rows, true) == lines + RowLines(rows)
  {
    if |rows| > 0 {
      var step := RowContribution(rows[0], true);
      calc {
        ParseRows(lines, rows, true);
        { ParseRowsStep(lines, rows, true); }
        ParseRows(lines + step, rows[1..], true);
        { ParseFirstRows(lines + step, rows[1..]); }
        lines + step + RowLines(rows[1..]);
        lines + (step + RowLines(rows[1..]));
        { RowLinesCons(rows); }
        lines + RowLines(rows);
      }
    }
  }

  /** The entries of the rows' reading are those the first row contributes
      to a later file, followed by those of the other rows. */
  lemma EntriesOnlyOfRows(rows: seq<string>)
    requires |rows| > 0
    ensures EntriesOnly(RowLines(rows)) == RowContribution(rows[0], false) + EntriesOnly(RowLines(rows[1..]))
  {
    var all := RowLines(rows);
    RowLinesCons(rows);
    assert all[0] == RowLine(rows[0]);
    assert all[1..] == RowLines(rows[1..]);
  }

  /** A later file's first row contributes in front of the other rows'
      entries, and together they make all the rows' entries. */
  lemma LaterRowsCompose(lines: seq<Line>, rows: seq<string>)
    requires |rows| > 0
    ensures lines + RowContribution(rows[0], false) + EntriesOnly(RowLines(rows[1..]))
         == lines + EntriesOnly(RowLines(rows))
  {
    var first, others := RowContribution(rows[0], false), EntriesOnly(RowLines(rows[1..]));
    calc {
      lines + first + others;
      lines + (first + others);
      { EntriesOnlyOfRows(rows); }
      lines + EntriesOnly(RowLines(rows));
    }
  }

  /** Parsing the rows of a later file appends only their entries. */
  lemma {:induction false} ParseLaterRows(lines: seq<Line>, rows: seq<string>)
    decreases |rows|
    ensures ParseRows(lines, rows, false) == lines + EntriesOnly(RowLines(rows))
  {
    if |rows| > 0 {
      var step := RowContribution(rows[0], false);
      calc {
        ParseRows(lines, rows, false);
        { ParseRowsStep(lines, rows, false); }
        ParseRows(lines + step, rows[1..], false);
        { ParseLaterRows(lines + step, rows[1..]); }
        lines + step + EntriesOnly(RowLines(rows[1..]));
        { LaterRowsCompose(lines, rows); }
        lines + EntriesOnly(RowLines(rows));
      }
    }
  }

  /** `parseFile` on an uninitialised document: one line per row of the file,
      a passthrough for each row without `=` and an entry for every other. */
  lemma ParseFirstFile(content: string)
    ensures ParseFile(None, content) == Some(RowLines(Explode(content)))
  {
    ParseFirstRows([], Explode(content));
    assert [] + RowLines(Explode(content)) == RowLines(Explode(content));
  }

  /** `parseFile` on an initialised document: earlier lines are untouched, the
      file's entries are appended in file order and its rows without `=` are
      dropped. */
  lemma ParseLaterFile(lines: seq<Line>, content: string)
    ensures ParseFile(Some(lines), content) == Some(lines + EntriesOnly(RowLines(Explode(content))))
  {
    ParseLaterRows(lines, Explode(content));
  }

  /** The quoting rule of `writeTargetFile`, in terms of occurrences. */
  ghost predicate QuotingRule(key: string, value: string)
  {
    Occurs(key, "password") || Occurs(value, " ") || Occurs(value, "${")
  }

  /** One line of the output: a passthrough verbatim, an entry as `key=value`,
      or as `key="value"` when the quoting rule fires. */
  function RenderLine(line: Line): (r: string)
    ensures line.Passthrough? ==> r == line.text
    ensures line.Entry? ==>
              r == line.key + "=" + (if QuotingRule(line.key, line.value)
                                     then "\"" + line.value + "\"" else line.value)
  {
    match line
    case Passthrough(text) => text
    case Entry(key, value) =>
      if Contains(key, "password") || Contains(value, " ") || Contains(value, "${")
      then key + "=\"" + value + "\""
      else key + "=" + value
  }

  /** `writeTargetFile` on an initialised document: every line rendered, in
      order, joined with the line terminator. */
  function Render(lines: seq<Line>): (r: string)
    ensures |lines| == 0 ==> r == ""
    ensures |lines| == 1 ==> r == RenderLine(lines[0])
    ensures |lines| > 1 ==> RenderLine(lines[0]) + [EOL] <= r
  {
    Implode(seq(|lines|, i requires 0 <= i < |lines| => RenderLine(lines[i])))
  }

  /** Rendering writes one output line per document line, in order, as long
      as no rendered line itself holds a line terminator. */
  lemma RenderOneLinePerLine(lines: seq<Line>)
    requires |lines| > 0
    requires forall i :: 0 <= i < |lines| ==> EOL !in RenderLine(lines[i])
    ensures |Explode(Render(lines))| == |lines|
    ensures forall i :: 0 <= i < |lines| ==> Explode(Render(lines))[i] == RenderLine(lines[i])
  {
    ExplodeImplode(seq(|lines|, i requires 0 <= i < |lines| => RenderLine(lines[i])));
  }

  /** An entry is written with double quotes exactly when its key contains
      `password` or its value contains a space or `${`, and as plain
      `key=value` otherwise. */
  lemma RenderEntryQuoting(key: string, value: string)
    ensures RenderLine(Entry(key, value)) == key + "=\"" + value + "\"" <==> QuotingRule(key, value)
    ensures !QuotingRule(key, value) ==> RenderLine(Entry(key, value)) == key + "=" + value
  {
    if !QuotingRule(key, value) {
      assert |key + "=\"" + value + "\""| != |key + "=" + value|;
    }
  }

  /** Characters an entry's value must not begin or end with for its
      rendering to read back unchanged: PHP whitespace other than the space
      (a value holding a space is always quoted) and the quote characters. */
  const ValueEdgeForbidden: set<char> := (PhpWhitespace - {' '}) + Quotes

  /** A line that survives rendering and re-parsing: no line terminators, no
      `=` in passthrough rows or keys, a key without surrounding whitespace and
      a value whose ends are not in `ValueEdgeForbidden`. */
  predicate WellFormed(line: Line)
  {
    match line
    case Passthrough(text) => '=' !in text && EOL !in text
    case Entry(key, value) =>
      && '=' !in key && EOL !in key && EOL !in value
      && (|key| > 0 ==> key[0] !in PhpWhitespace && key[|key| - 1] !in PhpWhitespace)
      && (|value| > 0 ==> value[0] !in ValueEdgeForbidden && value[|value| - 1] !in ValueEdgeForbidden)
  }

  /** The rendering of a well-formed line holds no line terminator. */
  lemma RenderLineSingle(line: Line)
    requires WellFormed(line)
    ensures EOL !in RenderLine(line)
  {
  }

  /** A row made of a key without `=`, an `=` and a right-hand side reads as
      the entry built from that key and right-hand side. */
  lemma RowLineOfPair(key: string, rhs: string)
    requires '=' !in key
    ensures RowLine(key + ['='] + rhs) == MakeConfigItem(key, rhs)
  {
    var split := SplitAtFirst(key + ['='] + rhs, '=');
    SplitPointUnique(split.value.0, split.value.1, key, rhs, '=');
  }

  /** `makeConfigItem` leaves a key and value that are already normalised
      as they are. */
  lemma MakeConfigItemOfNormalised(key: string, rhs: string, value: string)
    requires PhpTrim(key) == key
    requires TrimQuotes(PhpTrim(rhs)) == value
    ensures MakeConfigItem(key, rhs) == Entry(key, value)
  {
  }

  /** A value written inside double quotes reads back as itself. */
  lemma QuotedValueNormalises(value: string)
    requires |value| > 0 ==> value[0] !in Quotes && value[|value| - 1] !in Quotes
    ensures TrimQuotes(PhpTrim("\"" + value + "\"")) == value
  {
    assert "\"" + value + "\"" == ['"'] + value + ['"'];
    TrimWrappedOutside(value, '"', PhpWhitespace);
    TrimWrapped(value, '"', Quotes);
  }

  /** A value written bare, holding no space and with ends outside
      `ValueEdgeForbidden`, reads back as itself. */
  lemma BareValueNormalises(value: string)
    requires ' ' !in value
    requires |value| > 0 ==> value[0] !in ValueEdgeForbidden && value[|value| - 1] !in ValueEdgeForbidden
    ensures TrimQuotes(PhpTrim(value)) == value
  {
    if |value| > 0 {
      assert value[0] != ' ' && value[|value| - 1] != ' ';
      assert value[0] !in PhpWhitespace && value[|value| - 1] !in PhpWhitespace;
    }
    TrimFixedPoint(value, PhpWhitespace);
    TrimFixedPoint(value, Quotes);
  }

  /** The right-hand side written for a well-formed entry normalises back to
      its value, quoted or not. */
  lemma MakeConfigItemOfRendered(key: string, value: string, quoted: bool)
    requires WellFormed(Entry(key, value))
    requires !quoted ==> ' ' !in value
    ensures MakeConfigItem(key, if quoted then "\"" + value + "\"" else value) == Entry(key, value)
  {
    var rhs := if quoted then "\"" + value + "\"" else value;
    assert PhpTrim(key) == key by {
      TrimFixedPoint(key, PhpWhitespace);
    }
    if quoted {
      QuotedValueNormalises(value);
    } else {
      BareValueNormalises(value);
    }
    MakeConfigItemOfNormalised(key, rhs, value);
  }

  /** Reading back the rendering of a well-formed line gives the line. */
  lemma RowLineRenderLine(line: Line)
    requires WellFormed(line)
    ensures RowLine(RenderLine(line)) == line
  {
    match line
    case Passthrough(text) =>
    case Entry(key, value) =>
      var quoted := Contains(key, "password") || Contains(value, " ") || Contains(value, "${");
      var rhs := if quoted then "\"" + value + "\"" else value;
      assert RenderLine(line) == key + ['='] + rhs;
      RowLineOfPair(key, rhs);
      if !quoted {
        OccursChar(value, ' ');
        assert [' '] == " ";
      }
      MakeConfigItemOfRendered(key, value, quoted);
  }

  /** Rendering a non-empty document of well-formed lines and parsing the
      text as the first file gives back the same lines. */
  lemma RoundTrip(lines: seq<Line>)
    requires |lines| > 0
    requires forall i :: 0 <= i < |lines| ==> WellFormed(lines[i])
    ensures ParseFile(None, Render(lines)) == Some(lines)
  {
    var rendered := seq(|lines|, i requires 0 <= i < |lines| => RenderLine(lines[i]));
    forall i | 0 <= i < |lines|
      ensures EOL !in rendered[i] && RowLine(rendered[i]) == lines[i]
    {
      RenderLineSingle(lines[i]);
      RowLineRenderLine(lines[i]);
    }
    ExplodeImplode(rendered);
    ParseFirstFile(Render(lines));
    assert RowLines(rendered) == lines;
  }

  /** Without the well-formedness condition the round trip can fail: a value
      ending in a quote is written bare, and reading it back strips the quote. */
  lemma QuoteEndLost()
    ensures ParseFile(None, Render([Entry("k", "a\"")])) == Some([Entry("k", "a")])
  {
    var row := "k=a\"";
    QuoteEndRendered();
    assert Render([Entry("k", "a\"")]) == row;
    assert EOL !in row;
    assert Explode(row) == [row];
    QuoteEndRead(row);
    ParseFirstFile(row);
    assert RowLines([row]) == [RowLine(row)];
  }

  /** The value `a"` needs no quoting, so its entry is written bare. */
  lemma QuoteEndRendered()
    ensures RenderLine(Entry("k", "a\"")) == "k=a\""
  {
    OccursChar("a\"", ' ');
    assert !Occurs("k", "password");
    assert !Occurs("a\"", "${") by {
      MatchAtChar("a\"", '$', 0);
      MatchAtChar("a\"", '$', 1);
      assert forall i :: MatchAt("a\"", "${", i) ==> MatchAt("a\"", "$", i);
    }
  }

  /** Reading a bare row `k=a"` strips the trailing quote from the value. */
  lemma QuoteEndRead(row: string)
    requires row == "k=a\""
    ensures RowLine(row) == Entry("k", "a")
  {
    var key, value := "k", "a\"";
    assert row == key + ['='] + value;
    RowLineOfPair(key, value);
    QuoteEndKept();
    QuoteEndTrimmed();
  }

  /** Neither `k` nor `a"` has whitespace to trim. */
  lemma QuoteEndKept()
    ensures PhpTrim("k") == "k" && PhpTrim("a\"") == "a\""
  {
    var key, value := "k", "a\"";
    assert SkipLeading(key, PhpWhitespace, 0) == 0;
    assert SkipTrailing(key, PhpWhitespace, 0, 1) == 1;
    assert key[0..1] == key;
    assert SkipLeading(value, PhpWhitespace, 0) == 0;
    assert SkipTrailing(value, PhpWhitespace, 0, 2) == 2;
    assert value[0..2] == value;
  }

  /** Quote-trimming `a"` drops the unpaired closing quote. */
  lemma QuoteEndTrimmed()
    ensures TrimQuotes("a\"") == "a"
  {
    var s := "a\"";
    assert SkipLeading(s, Quotes, 0) == 0;
    assert SkipTrailing(s, Quotes, 0, 1) == 1;
    assert SkipTrailing(s, Quotes, 0, 2) == 1;
    assert s[0..1] == "a";
  }
}

=== FILE: generate_config_file.dfy ===
/** The `execute` step of the `generate-file` command: the argument checks,
    then every `--file` in order, then every `--var`/`--val` pair in order,
    then the rendering of the assembled document. File contents are given
    as strings; reading and writing files is not part of this model. */
module GenerateConfigFile {
  import opened Wrappers
  import opened PhpString
  import opened ConfigDocument

  /** The two argument checks of `execute`. Both raise the same exception
      with the same message; the constructors only tell which check fired. */
  datatype Error = NoSources | CountMismatch

  /** The `--file` loop: every file parsed in option order. */
  function ParseFiles(doc: Document, files: seq<string>): (r: Document)
    decreases |files|
    ensures doc.Some? || |files| > 0 ==> r.Some?
  {
    if |files| == 0 then doc
    else ParseFiles(ParseFile(doc, files[0]), files[1..])
  }

  /** The `--var` loop: the pair at each index set in index order. */
  function SetVariables(doc: Document, vars: seq<string>, vals: seq<string>): (r: Document)
    requires |vars| == |vals|
    decreases |vars|
    ensures doc.Some? || |vars| > 0 ==> r.Some?
  {
    if |vars| == 0 then doc
    else SetVariables(SetVariable(doc, vars[0], vals[0]), vars[1..], vals[1..])
  }

  /** `writeTargetFile`: the content written to the target path. It reads
      `$configsData` as an array, so the document must be initialised. */
  function WriteTargetFile(doc: Document): (r: string)
    requires doc.Some?
    ensures |doc.value| == 0 ==> r == ""
    ensures (|doc.value| > 0 && forall i :: 0 <= i < |doc.value| ==> WellFormed(doc.value[i]))
            ==> ParseFile(None, r) == doc
  {
    assert (|doc.value| > 0 && forall i :: 0 <= i < |doc.value| ==> WellFormed(doc.value[i]))
           ==> ParseFile(None, Render(doc.value)) == doc by {
      if |doc.value| > 0 && forall i :: 0 <= i < |doc.value| ==> WellFormed(doc.value[i]) {
        RoundTrip(doc.value);
      }
    }
    Render(doc.value)
  }

  /** Reference: the entries of later files, file by file, in row order. */
  function LaterFileEntries(files: seq<string>): seq<Line>
  {
    if |files| == 0 then []
    else EntriesOnly(RowLines(Explode(files[0]))) + LaterFileEntries(files[1..])
  }

  /** Reference: every row of the first file, then the entries of the rest. */
  function FileLines(files: seq<string>): seq<Line>
  {
    if |files| == 0 then []
    else RowLines(Explode(files[0])) + LaterFileEntries(files[1..])
  }

  /** Reference: one entry per `--var`/`--val` pair, in index order. */
  function VarEntries(vars: seq<string>, vals: seq<string>): seq<Line>
    requires |vars| == |vals|
    decreases |vars|
  {
    if |vars| == 0 then []
    else [MakeConfigItem(vars[0], vals[0])] + VarEntries(vars[1..], vals[1..])
  }

  /** Reference: the document `execute` renders, in processing order. */
  function Assembled(files: seq<string>, vars: seq<string>, vals: seq<string>): seq<Line>
    requires |vars| == |vals|
  {
    FileLines(files) + VarEntries(vars, vals)
  }

  /** Files parsed into an initialised document each append their entries. */
  lemma {:induction false} ParseLaterFiles(lines: seq<Line>, files: seq<string>)
    decreases |files|
    ensures ParseFiles(Some(lines), files) == Some(lines + LaterFileEntries(files))
  {
    if |files| > 0 {
      var step := EntriesOnly(RowLines(Explode(files[0])));
      calc {
        ParseFiles(Some(lines), files);
        { ParseLaterFile(lines, files[0]); }
        ParseFiles(Some(lines + step), files[1..]);
        { ParseLaterFiles(lines + step, files[1..]); }
        Some(lines + step + LaterFileEntries(files[1..]));
        { assert lines + step + LaterFileEntries(files[1..]) == lines + LaterFileEntries(files); }
        Some(lines + LaterFileEntries(files));
      }
    } else {
      assert lines + [] == lines;
    }
  }

  /** Parsing files from scratch: the first file keeps all its rows. */
  lemma ParseAllFiles(files: seq<string>)
    requires |files| > 0
    ensures ParseFiles(None, files) == Some(FileLines(files))
  {
    ParseFirstFile(files[0]);
    ParseLaterFiles(RowLines(Explode(files[0])), files[1..]);
  }

  /** Pairs set on an initialised document each append one entry. */
  lemma {:induction false} SetLaterVariables(lines: seq<Line>, vars: seq<string>, vals: seq<string>)
    requires |vars| == |vals|
    decreases |vars|
    ensures SetVariables(Some(lines), vars, vals) == Some(lines + VarEntries(vars, vals))
  {
    if |vars| > 0 {
      var item := MakeConfigItem(vars[0], vals[0]);
      var rest := VarEntries(vars[1..], vals[1..]);
      calc {
        SetVariables(Some(lines), vars, vals);
        SetVariables(SetVariable(Some(lines), vars[0], vals[0]), vars[1..], vals[1..]);
        SetVariables(Some(lines + [item]), vars[1..], vals[1..]);
        { SetLaterVariables(lines + [item], vars[1..], vals[1..]); }
        Some(lines + [item] + rest);
        { assert lines + [item] + rest == lines + ([item] + rest); }
        Some(lines + VarEntries(vars, vals));
      }
    } else {
      assert lines + [] == lines;
    }
  }

  /** With no files, the first pair seeds the document and the rest follow. */
  lemma VariablesOnly(vars: seq<string>, vals: seq<string>)
    requires |vars| > 0
    requires |vars| == |vals|
    ensures SetVariables(None, vars, vals) == Some(VarEntries(vars, vals))
  {
    var item := MakeConfigItem(vars[0], vals[0]);
    var first := SetVariable(None, vars[0], vals[0]).value;
    calc {
      SetVariables(None, vars, vals);
      SetVariables(Some(first), vars[1..], vals[1..]);
      { assert first == [item];
        SetLaterVariables(first, vars[1..], vals[1..]); }
      Some([item] + VarEntries(vars[1..], vals[1..]));
      Some(VarEntries(vars, vals));
    }
  }

  /** With files, the first file seeds the document; later files and then
      the pairs append to it. */
  lemma FilesThenVariables(files: seq<string>, vars: seq<string>, vals: seq<string>)
    requires |files| > 0
    requires |vars| == |vals|
    ensures SetVariables(ParseFiles(None, files), vars, vals) == Some(Assembled(files, vars, vals))
    ensures |Assembled(files, vars, vals)| > 0
  {
    ParseAllFiles(files);
    SetLaterVariables(FileLines(files), vars, vals);
    assert |RowLines(Explode(files[0]))| > 0;
  }

  /** After the argument checks pass, the document holds the rows of the
      first file, the entries of the later files and the pairs, in that
      order, and it is initialised by the time it is rendered. */
  lemma ProcessingOrder(files: seq<string>, vars: seq<string>, vals: seq<string>)
    requires |files| > 0 || |vars| > 0
    requires |vars| == |vals|
    ensures SetVariables(ParseFiles(None, files), vars, vals) == Some(Assembled(files, vars, vals))
    ensures |Assembled(files, vars, vals)| > 0
  {
    if |files| > 0 {
      FilesThenVariables(files, vars, vals);
    } else {
      VariablesOnly(vars, vals);
      assert ParseFiles(None, files) == None;
      assert Assembled(files, vars, vals) == [] + VarEntries(vars, vals) == VarEntries(vars, vals);
    }
  }

  /** `execute`: fails when neither files nor variables are given, or when
      the numbers of variables and values differ; otherwise yields the text
      written to the target file. */
  function Execute(files: seq<string>, vars: seq<string>, vals: seq<string>): (r: Result<string, Error>)
    ensures r == Err(NoSources) <==> |files| == 0 && |vars| == 0
    ensures r == Err(CountMismatch) <==> (|files| > 0 || |vars| > 0) && |vars| != |vals|
    ensures r.Ok? ==> |vars| == |vals| && r.value == Render(Assembled(files, vars, vals))
  {
    if |files| == 0 && |vars| == 0 then Err(NoSources)
    else if |vars| != |vals| then Err(CountMismatch)
    else
      var doc := SetVariables(ParseFiles(None, files), vars, vals);
      ProcessingOrder(files, vars, vals);
      Ok(WriteTargetFile(doc))
  }

  /** The written text, read back as a first file, gives the assembled
      document again when all its lines are well formed. */
  lemma ExecuteRoundTrip(files: seq<string>, vars: seq<string>, vals: seq<string>)
    requires |files| > 0 || |vars| > 0
    requires |vars| == |vals|
    requires forall l :: l in Assembled(files, vars, vals) ==> WellFormed(l)
    ensures Execute(files, vars, vals).Ok?
    ensures ParseFile(None, Execute(files, vars, vals).value) == Some(Assembled(files, vars, vals))
  {
    var doc := Assembled(files, vars, vals);
    ProcessingOrder(files, vars, vals);
    RoundTrip(doc);
  }
}

=== FILE: php_string.dfy ===
/** The PHP string primitives the command relies on: `strpos`, `trim` with a
    character list, `explode` on a delimiter (without limit and with limit 2)
    and `implode`. Strings are sequences of characters; there is no encoding. */
module PhpString {
  import opened Wrappers

  /** The platform line terminator `PHP_EOL`, fixed to a line feed. */
  const EOL: char := '\n'

  /** The characters PHP's `trim` strips when no character list is given:
      space, tab, line feed, carriage return, NUL and vertical tab. */
  const PhpWhitespace: set<char> := {' ', '\t', '\n', '\r', '\0', '\U{000B}'}

  /** The character list `"\"'"` used to strip quotes from values. */
  const Quotes: set<char> := {'"', '\''}

  /** `needle` occurs in `hay` starting at position `i`. */
  ghost predicate MatchAt(hay: string, needle: string, i: int)
  {
    0 <= i && i + |needle| <= |hay| && hay[i..i + |needle|] == needle
  }

  /** `needle` occurs somewhere in `hay`. */
  ghost predicate Occurs(hay: string, needle: string)
  {
    exists i :: MatchAt(hay, needle, i)
  }

  /** `strpos($hay, $needle, $from)`: the first position at or after `from`
      where `needle` occurs, or `None` (PHP's `false`). */
  function StrPosFrom(hay: string, needle: string, from: nat): (r: Option<nat>)
    decreases |hay| - from
    ensures r.Some? ==> from <= r.value && MatchAt(hay, needle, r.value)
    ensures r.Some? ==> forall j :: from <= j < r.value ==> !MatchAt(hay, needle, j)
    ensures r.None? ==> forall j :: from <= j ==> !MatchAt(hay, needle, j)
  {
    if from + |needle| > |hay| then None
    else if hay[from..from + |needle|] == needle then Some(from)
    else StrPosFrom(hay, needle, from + 1)
  }

  /** `strpos($hay, $needle)`: the first occurrence of `needle` in `hay`. */
  function StrPos(hay: string, needle: string): (r: Option<nat>)
    ensures r.Some? <==> Occurs(hay, needle)
    ensures r.Some? ==> MatchAt(hay, needle, r.value)
    ensures r.Some? ==> forall j :: 0 <= j < r.value ==> !MatchAt(hay, needle, j)
  {
    StrPosFrom(hay, needle, 0)
  }

  /** `false !== strpos($hay, $needle)`. */
  predicate Contains(hay: string, needle: string)
  {
    StrPos(hay, needle).Some?
  }

  /** A one-character needle matches exactly where that character stands. */
  lemma MatchAtChar(s: string, c: char, i: int)
    ensures MatchAt(s, [c], i) <==> 0 <= i < |s| && s[i] == c
  {
    if 0 <= i < |s| {
      assert s[i..i + 1] == [s[i]];
    }
  }

  /** A one-character needle occurs exactly when the character is in `s`. */
  lemma OccursChar(s: string, c: char)
    ensures Occurs(s, [c]) <==> c in s
  {
    if c in s {
      var i :| 0 <= i < |s| && s[i] == c;
      MatchAtChar(s, c, i);
    }
    if Occurs(s, [c]) {
      var i :| MatchAt(s, [c], i);
      MatchAtChar(s, c, i);
    }
  }

  /** `explode($sep, $s, 2)` on a string known to hold `sep`: the parts before
      and after the first `sep`; `None` when `sep` does not occur (the caller
      checks this with `strpos` first). */
  function SplitAtFirst(s: string, sep: char): (r: Option<(string, string)>)
    ensures r.None? <==> sep !in s
    ensures r.Some? ==> sep !in r.value.0 && r.value.0 + [sep] + r.value.1 == s
  {
    match StrPos(s, [sep])
    case None =>
      OccursChar(s, sep);
      None
    case Some(i) =>
      MatchAtChar(s, sep, i);
      assert forall j :: 0 <= j < i ==> s[j] != sep by {
        forall j | 0 <= j < i ensures s[j] != sep {
          MatchAtChar(s, sep, j);
        }
      }
      assert s[..i] + [sep] + s[i + 1..] == s;
      Some((s[..i], s[i + 1..]))
  }

  /** In `a + [sep] + b` with `sep` not in `a`, the first `sep` is the one
      right after `a`. */
  lemma FirstSeparator(a: string, b: string, sep: char)
    requires sep !in a
    ensures StrPos(a + [sep] + b, [sep]) == Some(|a|)
  {
    var s := a + [sep] + b;
    MatchAtChar(s, sep, |a|);
    forall j | 0 <= j < |a|
      ensures !MatchAt(s, [sep], j)
    {
      MatchAtChar(s, sep, j);
      assert s[j] == a[j];
    }
  }

  /** `explode($sep, $s, 2)` on `a + [sep] + b` with `sep` not in `a` splits
      right after `a`. */
  lemma SplitAtSeparator(a: string, b: string, sep: char)
    requires sep !in a
    ensures SplitAtFirst(a + [sep] + b, sep) == Some((a, b))
  {
    var s := a + [sep] + b;
    FirstSeparator(a, b, sep);
    assert s[..|a|] == a;
    assert s[|a| + 1..] == b;
  }

  /** If two strings free of `sep` are each followed by `sep`, the split point
      is the same. */
  lemma SplitPointUnique(a: string, b: string, c: string, d: string, sep: char)
    requires sep !in a && sep !in c
    requires a + [sep] + b == c + [sep] + d
    ensures a == c && b == d
  {
    var s := a + [sep] + b;
    FirstSeparator(a, b, sep);
    FirstSeparator(c, d, sep);
    assert a == s[..|a|] == c;
    assert b == s[|a| + 1..] == d;
  }

  /** `explode(PHP_EOL, $s)`: the pieces of `s` between line terminators.
      There is always at least one piece (the empty string gives `[""]`). */
  function Explode(s: string): (r: seq<string>)
    decreases |s|
    ensures |r| >= 1
    ensures forall i :: 0 <= i < |r| ==> EOL !in r[i]
  {
    match SplitAtFirst(s, EOL)
    case None => [s]
    case Some((before, after)) => [before] + Explode(after)
  }

  /** `implode(PHP_EOL, $lines)`: the pieces joined with line terminators. */
  function Implode(lines: seq<string>): string
  {
    if |lines| == 0 then ""
    else if |lines| == 1 then lines[0]
    else lines[0] + [EOL] + Implode(lines[1..])
  }

  /** Joining the pieces of `s` gives back `s`. */
  lemma {:induction false} ImplodeExplode(s: string)
    decreases |s|
    ensures Implode(Explode(s)) == s
  {
    match SplitAtFirst(s, EOL)
    case None =>
    case Some((before, after)) =>
      ImplodeExplode(after);
      var rest := Explode(after);
      assert Explode(s) == [before] + rest;
      assert ([before] + rest)[1..] == rest;
  }

  /** Splitting joined lines that hold no terminator gives back the lines. */
  lemma {:induction false} ExplodeImplode(lines: seq<string>)
    requires |lines| >= 1
    requires forall i :: 0 <= i < |lines| ==> EOL !in lines[i]
    ensures Explode(Implode(lines)) == lines
  {
    if |lines| > 1 {
      var rest := Implode(lines[1..]);
      calc {
        Explode(Implode(lines));
        { SplitAtSeparator(lines[0], rest, EOL); }
        [lines[0]] + Explode(rest);
        { ExplodeImplode(lines[1..]); }
        [lines[0]] + lines[1..];
        lines;
      }
    }
  }

  /** The first position at or after `i` whose character is not in `cs`
      (`|s|` when there is none): where `ltrim` starts keeping. */
  function SkipLeading(s: string, cs: set<char>, i: nat): (r: nat)
    requires i <= |s|
    decreases |s| - i
    ensures i <= r <= |s|
    ensures forall k :: i <= k < r ==> s[k] in cs
    ensures r < |s| ==> s[r] !in cs
  {
    if i < |s| && s[i] in cs then SkipLeading(s, cs, i + 1) else i
  }

  /** Moving down from `j` but not below `lo`, the end of the last character
      not in `cs`: where `rtrim` stops keeping. */
  function SkipTrailing(s: string, cs: set<char>, lo: nat, j: nat): (r: nat)
    requires lo <= j <= |s|
    decreases j - lo
    ensures lo <= r <= j
    ensures forall k :: r <= k < j ==> s[k] in cs
    ensures r > lo ==> s[r - 1] !in cs
  {
    if j > lo && s[j - 1] in cs then SkipTrailing(s, cs, lo, j - 1) else j
  }

  /** `r` is the slice of `s` starting at `i`, and everything of `s` outside
      that slice is drawn from `cs`. */
  ghost predicate StrippedAt(s: string, r: string, cs: set<char>, i: int)
  {
    && 0 <= i && i + |r| <= |s|
    && r == s[i..i + |r|]
    && (forall j :: 0 <= j < i ==> s[j] in cs)
    && (forall j :: i + |r| <= j < |s| ==> s[j] in cs)
  }

  /** PHP's `trim($s, $cs)`: strip characters of `cs` from both ends. */
  function Trim(s: string, cs: set<char>): (r: string)
    ensures |r| > 0 ==> r[0] !in cs && r[|r| - 1] !in cs
  {
    var start := SkipLeading(s, cs, 0);
    s[start..SkipTrailing(s, cs, start, |s|)]
  }

  /** `Trim` keeps a slice of `s` and strips only characters of `cs`. */
  lemma TrimStrips(s: string, cs: set<char>)
    ensures StrippedAt(s, Trim(s, cs), cs, SkipLeading(s, cs, 0))
  {
  }

  /** A string is its own trim exactly when neither end is in `cs`. */
  lemma TrimFixedPoint(s: string, cs: set<char>)
    ensures Trim(s, cs) == s <==> (|s| == 0 || (s[0] !in cs && s[|s| - 1] !in cs))
  {
    if |s| > 0 && s[0] !in cs && s[|s| - 1] !in cs {
      assert SkipLeading(s, cs, 0) == 0;
      assert SkipTrailing(s, cs, 0, |s|) == |s|;
      assert s[0..|s|] == s;
    }
  }

  /** Trimming twice is trimming once. */
  lemma TrimIdempotent(s: string, cs: set<char>)
    ensures Trim(Trim(s, cs), cs) == Trim(s, cs)
  {
    TrimFixedPoint(Trim(s, cs), cs);
  }

  /** A value wrapped in one character `q` of `cs` on each side loses exactly
      that wrapping under `Trim`, provided its own ends are not in `cs`. */
  lemma TrimWrapped(v: string, q: char, cs: set<char>)
    requires q in cs
    requires |v| > 0 ==> v[0] !in cs && v[|v| - 1] !in cs
    ensures Trim([q] + v + [q], cs) == v
  {
    var w := [q] + v + [q];
    if |v| > 0 {
      assert w[1] == v[0] && w[|w| - 2] == v[|v| - 1];
      assert SkipLeading(w, cs, 1) == 1;
      assert SkipLeading(w, cs, 0) == 1;
      assert SkipTrailing(w, cs, 1, |w| - 1) == |w| - 1;
      assert SkipTrailing(w, cs, 1, |w|) == |w| - 1;
      assert w[1..|w| - 1] == v;
    } else {
      assert SkipLeading(w, cs, 2) == 2;
      assert SkipLeading(w, cs, 0) == 2;
      assert SkipTrailing(w, cs, 2, 2) == 2;
    }
  }

  /** A string that begins and ends with a character outside `cs` is left
      alone by `Trim`. */
  lemma TrimWrappedOutside(v: string, q: char, cs: set<char>)
    requires q !in cs
    ensures Trim([q] + v + [q], cs) == [q] + v + [q]
  {
    var w := [q] + v + [q];
    assert w[0] == q && w[|w| - 1] == q;
    TrimFixedPoint(w, cs);
  }

  /** `trim($s)` with PHP's default character list. */
  function PhpTrim(s: string): string
  {
    Trim(s, PhpWhitespace)
  }

  /** `trim($s, "\"'")`: strips every leading and trailing quote, whether or
      not they pair up. */
  function TrimQuotes(s: string): string
  {
    Trim(s, Quotes)
  }
}

=== FILE: wrappers.dfy ===
/** A nullable value and a value-or-error result, used across the model. */
module Wrappers {

  /** A value that may be absent; `None` plays the role of PHP's `null`. */
  datatype Option<+T> = None | Some(value: T) {

    /** The wrapped value, or `default` when there is none. */
    function GetOr(default: T): T
    {
      match this
      case Some(v) => v
      case None => default
    }
  }

  /** Either a computed value or the error that stopped the computation. */
  datatype Result<+T, +E> = Ok(value: T) | Err(error: E)
}
